=== FILE: README.md ===
# Ataraxy Bank payout rules in Dafny

A model of the rule logic of the Ataraxy Bank plugin for a Red Discord bot
(`atxbank/atxbank.py`). The plugin's commands are chat plumbing over the
host's bank ledger and config store. Inside them sits a small set of integer
rules, and this project states them as pure functions and proves their
properties:

- **Cooldown** (`cooldown.dfy`): whether a member may `work` now. The
  remaining wait is split into days, hours, minutes and seconds by Python's
  floor `divmod`. The `balance` command shows the same wait in its footer.
- **Payout** (`payout.dfy`): the `work` command. It draws a base pay from
  `[min, max]` and adds the voter (+25) and booster (+50) bonuses. A roll of
  10 adds a jackpot of `round(running * k / 10)`. The total is credited with
  a cap at the maximum balance.
- **Ledger** (`ledger.dfy`): the capped credit and the zero-floored debit
  that `work`, `addmoney`, `removemoney`, the mass adjustments and the tax
  sweep share.
- **Taxes** (`taxes.dfy`): the `ataraxytaxes` sweep. Each bracket takes a
  fixed percentage of the whole balance.
- **Draw** (`draw.dfy`): the `bankdraw` lottery. The pool is weighted by
  duplication: each member gets one entry plus one per tier role held. The
  draw runs only with more than one eligible member. A Nitro chance can
  replace the prize, and the Lv70 and Lv100 boosts multiply it.
- **Admin** (`admin.dfy`): `addmoney`, `removemoney`, `massmoney numeric` and
  `massmoney percent`.
- **Leaderboard** (`leaderboard.dfy`): the `bankleaderboard` rows, with
  balances clamped to the maximum. The rows go onto pages of ten, with
  `ceil(n/10)` in each footer. As written, an account above the maximum makes
  the command fail (the line 215 finding below).

`basics.dfy` holds `Option`, `Min`, `Max` and Python's truncating `int()` on
a float. `guild.dfy` holds members, accounts and the hard-wired level-role
identifiers. `sweeps.dfy` holds the bot-skipping sweep over a list of accounts.

Some inputs are outside the code and become parameters:

- The clock becomes `now`, in whole seconds.
- The random draws become parameters with their ranges as preconditions:
  the base pay, the roll, the jackpot tenths `k`, the pool index and the
  Nitro roll. `random.shuffle` followed by `random.choice` picks each pool
  position uniformly, so one pool index models the pair.
- Balances are integers read from the ledger and returned as new balances.
- The host ledger refuses a negative deposit or withdrawal by raising.
  `work` (lines 367-377), the tax sweep (lines 492-501), `addmoney`,
  `removemoney` (lines 656-711) and both mass adjustments (lines 751-778,
  815-841) wrap each ledger call in a bare `except`. So `Ledger.Credit` and
  `Ledger.Debit` leave the balance unchanged in that case. `bankdraw`
  deposits at line 624 without a `try`; see `Draw.Award` under "Left out".

Where the code's evident intent and its behaviour differ, the model carries
both halves: a member for the code as written, with a lemma that shows the
difference, and a corrected member that the rest of the model uses. Each case
is a row of "## Findings" below:

- The `balance` footer's guard at line 415 is always true, so a member who
  never worked is told to wait (`Cooldown.SentinelShowsWait` against
  `Cooldown.BalanceNotice`).
- Once the cooldown has run out, the footer's floor `divmod` of the negative
  remainder still shows a wait (lines 417-427;
  `Cooldown.ElapsedCooldownShowsWait` against `Cooldown.BalanceNotice`).
- A stored string makes `balance` fail at line 416, before the reset at lines
  434-436 (`Cooldown.BalanceAsWritten` and
  `Cooldown.StringTimestampSkipsReset` against `Cooldown.Balance`).
- The booster role never gives the Nitro chance (line 600;
  `Draw.DrawAsWritten` and `Draw.BoosterMissesNitroAsWritten` against
  `Draw.Draw`).
- `massmoney percent` changes no balance (line 753;
  `Admin.MassPercentAsWritten` against `Admin.MassPercent`).
- The leaderboard fails on the first account above the maximum, because
  `MOCK_MEMBER` at line 215 is undefined (`Leaderboard.LeaderboardAsWritten`
  and `Leaderboard.OverMaximumFailsAsWritten` against
  `Leaderboard.Leaderboard`).

One more case follows the code without a corrected counterpart:

- When `min > max`, `work` fails after it has already stored the new
  timestamp. The model returns `PayRangeEmpty` for this case, although the
  `workpayout` setter refuses `min > max` (lines 74-76), so the case only
  arises from a stored configuration the setter did not write.

## Model

| member | source | states |
|---|---|---|
| Ledger.Credit | atxbank/atxbank.py:367-377 | a non-negative credit yields `min(current + amount, max)`; whenever `current + amount` exceeds the cap the result is the cap, for a negative amount too (the `set_balance` branch); otherwise a refused negative deposit leaves the balance alone; the result never falls below a balance that was within the cap |
| Ledger.Debit | atxbank/atxbank.py:701-708 | a non-negative debit yields `max(current - amount, 0)`: never negative, never above a non-negative starting balance |
| Ledger.ZeroAdjustmentIsIdentity | atxbank/atxbank.py:819-839 | crediting or debiting zero leaves an in-bounds balance unchanged |
| Ledger.CreditUndoesDebit | atxbank/atxbank.py:659-708 | a debit that did not reach the floor is undone by a credit of the same amount |
| Ledger.DebitUndoesCredit | atxbank/atxbank.py:659-708 | a credit that did not reach the cap is undone by a debit of the same amount |
| Ledger.AdjustmentsKeepBounds | atxbank/atxbank.py:659-708 | both rules keep an in-bounds balance within `0..max` |
| Cooldown.CheckWork | atxbank/atxbank.py:282-290 | work is allowed exactly for the stored 0 sentinel, a string, or a clock at or past `last + hours*3600`; a denial carries the positive number of seconds still to wait |
| Cooldown.AllowedStaysAllowed | atxbank/atxbank.py:285-288 | once allowed, work stays allowed at every later time |
| Cooldown.DefaultCooldownBoundary | atxbank/atxbank.py:285-288 | with the default 24 hours, 86399 seconds after the last work is a denial with one second left and 86400 seconds is a permission |
| Cooldown.Decompose | atxbank/atxbank.py:293-295 | `days*86400 + hours*3600 + mins*60 + secs` equals the remaining time, with hours, minutes and seconds in their natural ranges, for negative times too; days are negative exactly when the time is |
| Cooldown.DecomposeUnique | atxbank/atxbank.py:293-295 | the decomposition is the only normalized one of that length |
| Cooldown.WaitParts | atxbank/atxbank.py:297-302 | the message names days, hours and minutes in that order, each exactly when its count is positive, and never seconds |
| Cooldown.BalanceNoticeAsWritten | atxbank/atxbank.py:413-432 | as written, a stored string makes the balance command fail, and for a timestamp the footer says "can work" exactly when the remainder is under a day and its floor remainder mod a day is under a minute, and otherwise names the days, hours and minutes of the floor `divmod` of the remainder, each only when positive |
| Cooldown.SentinelShowsWait | atxbank/atxbank.py:415-427 | a member who never worked may work, but the footer as written tells them to wait 20 hours 13 mins |
| Cooldown.ElapsedCooldownShowsWait | atxbank/atxbank.py:417-427 | when the cooldown ran out less than 23 h 59 min ago, the footer as written shows a wait although work is allowed |
| Cooldown.BalanceNotice | atxbank/atxbank.py:413-432 | the intended footer shows "can work" exactly when the work command would allow it, and otherwise the same units the work command's refusal names |
| Cooldown.BalanceAsWritten | atxbank/atxbank.py:406-436 | as written, the command fails exactly for a stored string, and then resets nothing; for a timestamp it shows the balance when it is within the maximum and the maximum otherwise, resets exactly a balance above it, and carries the as-written footer |
| Cooldown.Balance | atxbank/atxbank.py:406-436 | as intended (guard of line 415 corrected), the command never fails; the displayed balance is the stored one when within the maximum and the maximum otherwise; a balance above it is reset, exactly then; the footer is the corrected footer: "can work" exactly when the work command allows it, otherwise the units of the work command's remaining wait |
| Cooldown.BalanceAgreesOnStamps | atxbank/atxbank.py:406-436 | for a stored timestamp, the as-written and the intended command show and reset the same balance |
| Cooldown.StringTimestampSkipsReset | atxbank/atxbank.py:415-436 | a stored string with balance 50 above maximum 10: the as-written command fails with no reset, the intended one shows 10 and resets |
| Payout.ScanRoles | atxbank/atxbank.py:332-337 | the booster and voter flags are set exactly when the member holds that role |
| Payout.Flags | atxbank/atxbank.py:324-337 | roles only count when a booster or a voter role is configured |
| Payout.RoundTenths | atxbank/atxbank.py:364 | the result is the integer nearest to `n/10`; on a tie it is the even one |
| Payout.RoundTenthsUnique | atxbank/atxbank.py:364 | no other integer is nearest with ties to even |
| Payout.JackpotBonus | atxbank/atxbank.py:362-365 | the bonus is 0 unless the roll is 10; on a roll of 10 it is `running*k/10` rounded to the nearest integer with ties to the even one (Python's `round`); it lies between 0 and a non-negative running total |
| Payout.ComputePayout | atxbank/atxbank.py:349-365 | total = base + voter (25 or 0) + booster (50 or 0) + jackpot bonus; the jackpot is flagged exactly on a roll of 10, and its bonus is the jackpot rule applied to the pre-jackpot total `base + voter + booster` |
| Payout.Work | atxbank/atxbank.py:276-377 | a refusal happens exactly when the cooldown denies and keeps the stored timestamp; otherwise the timestamp becomes `now`; an empty pay range fails after that; a payment is exactly the breakdown of the drawn base, the member's role flags, the roll and the tenths `k`, with its base in `[min, max]`, and credits the total with the cap |
| Payout.WorkKeepsBalanceInBounds | atxbank/atxbank.py:367-377 | with a non-negative pay range, a paid work leaves an in-bounds balance between its old value and the maximum |
| Payout.PlainWorkPaysBase | atxbank/atxbank.py:349-365 | pay range 10..10, no roles, no jackpot: total 10 |
| Payout.BothBonusesStack | atxbank/atxbank.py:355-360 | base 0 with both the voter and booster roles and no jackpot: total 75 |
| Taxes.TaxRate | atxbank/atxbank.py:479-490 | the rate is one of 0, 2, 5, 10, 15, 30 percent, and 0 exactly for balances up to 1000 |
| Taxes.TaxRateMatchesTable | atxbank/atxbank.py:479-490 | the if-chain agrees with a lookup in the bracket table `(>10000: 30, >8000: 15, >5000: 10, >3000: 5, >1000: 2)` for every balance |
| Taxes.TaxRateMonotone | atxbank/atxbank.py:479-490 | a larger balance never gets a lower rate |
| Taxes.TaxAmount | atxbank/atxbank.py:479-490 | the tax is the floor of `balance * rate / 100` and lies between 0 and the balance |
| Taxes.TaxAmountMonotone | atxbank/atxbank.py:479-490 | the tax grows with the balance |
| Taxes.AfterTax | atxbank/atxbank.py:477-501 | balances that are not positive are untouched; a positive balance ends between 0 and itself, reduced by exactly the tax, and strictly reduced above 1000 |
| Taxes.BracketCliff | atxbank/atxbank.py:479-499 | brackets apply to the whole balance: 10000 keeps 8500 but 10001 keeps only 7001 |
| Taxes.TaxSweep | atxbank/atxbank.py:469-501 | bots and non-positive balances are unchanged; every other member ends between 0 and their balance, less exactly their tax |
| Sweeps.Sweep | atxbank/atxbank.py:813-842 | the list keeps its length and order; bots keep their balance and every human gets the adjustment |
| Draw.DrawMembers | atxbank/atxbank.py:555-559 | the draw considers the whole guild when the required role does not exist; otherwise every member holding the role, as often as the guild list holds it, and no one else |
| Draw.EligibleMembers | atxbank/atxbank.py:570-573 | exactly the non-bot, non-owner draw members are eligible, each as often as the draw members list them, so the `> 1` threshold counts eligible members |
| Draw.TierEntries | atxbank/atxbank.py:575-587 | a member's extra entries are copies of that member, one per tier role in its role list |
| Draw.Pool | atxbank/atxbank.py:570-587 | every pool entry is an eligible draw member, and the pool is at least as long as the eligible list |
| Draw.PoolMultiplicity | atxbank/atxbank.py:570-587 | each member appears in the pool exactly `listed * (1 + tier roles held)` times when eligible and never otherwise |
| Draw.TierCountIsTiersHeld | atxbank/atxbank.py:575-587 | with distinct roles, the extra-entry count is the number of the four tier roles (Lv20, Lv30, Lv40, Lv50) the member holds |
| Draw.Multiplier | atxbank/atxbank.py:616-621 | the boost is 1 without Lv70 and Lv100, 1.5 with Lv70 alone, 2 with Lv100 alone and 3 with both |
| Draw.Award | atxbank/atxbank.py:610-624 | a Nitro prize replaces the money exactly when the winner has the chance and rolls 10; otherwise the payout times the boost is deposited, with no cap |
| Draw.DrawAsWritten | atxbank/atxbank.py:589-624 | as written, a draw happens exactly with more than one eligible member; the winner is the picked pool entry; Nitro exactly for an Lv50 holder rolling 10; otherwise the boosted payout |
| Draw.BoosterMissesNitroAsWritten | atxbank/atxbank.py:597-603 | a booster without Lv50 who rolls 10 gets money as written, but Nitro under the intended rule |
| Draw.Draw | atxbank/atxbank.py:589-624 | a draw happens exactly with more than one eligible member; the winner is the picked pool entry, an eligible draw member; Nitro exactly for booster or Lv50 holders rolling 10; otherwise the payout boosted by Lv70 then Lv100 |
| Draw.LoneMemberNoDraw | atxbank/atxbank.py:589 | one eligible member among bots and the owner is the whole eligible list, so no draw takes place |
| Admin.AddMoney | atxbank/atxbank.py:634-671 | a non-positive amount or a bot target is refused; otherwise the balance becomes `min(balance + amount, max)` and rises unless it hits the cap |
| Admin.RemoveMoney | atxbank/atxbank.py:676-713 | a non-positive amount or a bot target is refused; otherwise the balance becomes `max(balance - amount, 0)` and falls unless it hits zero |
| Admin.AddThenRemoveRestores | atxbank/atxbank.py:659-708 | adding and then removing the same amount restores a balance that did not reach the cap |
| Admin.ParseAction | atxbank/atxbank.py:795 | only the exact words "income" and "deduction" are accepted |
| Admin.Adjust | atxbank/atxbank.py:818-839 | income is a capped credit and deduction a zero-floored debit of the delta |
| Admin.NumericRefusals | atxbank/atxbank.py:795-800 | reports an unknown action and a negative amount, each exactly once when it applies and not at all otherwise, the action first |
| Admin.MassNumeric | atxbank/atxbank.py:795-843 | refused exactly for an unknown action or a negative amount; otherwise bots keep their balance and every human is adjusted by the amount's whole part |
| Admin.MassNumericBelowOneIsNoOp | atxbank/atxbank.py:806-839 | an amount below one whole unit, zero included, changes no in-bounds balance |
| Admin.PercentRefusals | atxbank/atxbank.py:732-737 | reports an unknown action and a percentage outside `[0, 1]`, each exactly once when it applies and not at all otherwise, the action first |
| Admin.MassPercentAsWritten | atxbank/atxbank.py:730-780 | as written, refused exactly on invalid input, and otherwise every balance is left unchanged |
| Admin.MassPercent | atxbank/atxbank.py:749-777 | as intended, each human is adjusted by `floor(balance * percent)`, a delta between 0 and the balance; bots are skipped |
| Admin.PercentDelta | atxbank/atxbank.py:753 | the delta is the floor of `balance * percent` and lies between 0 and the balance |
| Admin.TenPercentDeduction | atxbank/atxbank.py:753-765 | a 10% deduction on 1000 gives 900 as intended and leaves 1000 as written |
| Basics.Trunc | atxbank/atxbank.py:806 | `int()` of a float truncates toward zero |
| Leaderboard.EffectiveTop | atxbank/atxbank.py:171-172 | a requested size below 1 becomes 10, any other is kept |
| Leaderboard.Rows | atxbank/atxbank.py:201-228 | as intended (line 215 corrected): row i has position i+1; its shown balance is the stored one when within the maximum and exactly the maximum when above it; the caller's own row is marked |
| Leaderboard.Resets | atxbank/atxbank.py:212-215 | as intended (line 215 storing the maximum): exactly the accounts above the maximum are reset |
| Leaderboard.NoResetsWithinMaximum | atxbank/atxbank.py:212-215 | no account needs a reset exactly when every shown balance is within the maximum, which is exactly when the as-written command does not fail |
| Leaderboard.Paginate | atxbank/atxbank.py:229-257 | the pages hold the rows in order, there are `ceil(n/10)` of them, every page but the last holds 10 rows and the last 1 to 10, and page k's footer reads k of the page count |
| Leaderboard.LeaderboardAsWritten | atxbank/atxbank.py:169-266 | as written: an empty bank gives "no accounts"; the command fails exactly when one of the first `top` accounts (10 when `top < 1`) is above the maximum; otherwise its pages hold those accounts in order with their stored balances, `ceil(n/10)` pages of 10 rows except a last one of 1 to 10, page k footed "k of N", and nothing is reset |
| Leaderboard.Leaderboard | atxbank/atxbank.py:169-266 | as intended: the command never fails; an empty bank gives "no accounts"; otherwise the pages hold the first `top` accounts (10 when `top < 1`) in order, `ceil(n/10)` pages of 10 rows except a last one of 1 to 10, page k footed "k of N", with balances clamped and exactly the above-maximum accounts reset |
| Leaderboard.OverMaximumFailsAsWritten | atxbank/atxbank.py:212-215 | one account at 20 with maximum 10: as written the command fails; as intended it shows 10 and resets that account |

## Findings

| source | as written | input that shows it | evidently intended | confidence | as-written member | corrected member |
|---|---|---|---|---|---|---|
| atxbank/atxbank.py:415 | the guard `last_work != 0 or not isinstance(last_work, str)` holds for every stored value, so the balance footer computes a wait for the "never worked" 0 (and fails on a string) | `work_lastused` 0, cooldown 24 h, clock at 100000 s: the footer says "20 hours 13 mins" | no wait for a member who never worked (`and` in the guard) | high; not executed | Cooldown.SentinelShowsWait | Cooldown.BalanceNotice |
| atxbank/atxbank.py:417-427 | after the cooldown has run out, the negative remainder is split by floor `divmod`, which gives day -1 and positive hours and minutes | last work at 100000 s, cooldown 24 h, clock at 186460 s: the footer says "23 hours 59 mins" although work is allowed | show a wait only while the work command would refuse | high; not executed | Cooldown.ElapsedCooldownShowsWait | Cooldown.BalanceNotice |
| atxbank/atxbank.py:415-436 | the same always-true guard sends a stored string into `last_work + ...`, which raises before the reset at lines 434-436 | `work_lastused` "x", balance 50, maximum 10: the command fails and the balance stays 50 | show the balance clamped to 10 and reset it | high; not executed | Cooldown.StringTimestampSkipsReset | Cooldown.Balance |
| atxbank/atxbank.py:600 | `role.id == server_booster_role` compares an integer identifier with the role object returned at line 562, which is never equal | the winner holds the booster role but not Lv50, and the Nitro roll is 10: money is deposited and there is no Nitro chance | booster-role holders get the one-in-ten Nitro chance | medium (rests on the chat library's role equality); not executed | Draw.BoosterMissesNitroAsWritten | Draw.Draw |
| atxbank/atxbank.py:753 | `int(current_balance * amount)` reads the undefined name `amount`; the bare `except` at line 778 swallows the error for every member | `massmoney percent 0.1 deduction` on a member holding 1000: the balance stays 1000 | deduct `int(1000 * 0.1)`, leaving 900 | high; not executed | Admin.MassPercentAsWritten | Admin.MassPercent |
| atxbank/atxbank.py:215 | `MOCK_MEMBER` is neither defined nor imported in the file, and the `try` at lines 204-210 covers only the name lookup, so the first account above the maximum raises `NameError` | one account with balance 20, maximum 10, `top` 10: the command fails, no page is sent, nothing is reset | show 10 and reset the stored balance to 10 | high; not executed | Leaderboard.OverMaximumFailsAsWritten | Leaderboard.Leaderboard |

## Left out

- Chat I/O is left out: embeds, message wording, `humanize_number`, column widths, menus and display names. It is display only. The model returns the data a message is built from, such as the wait units, the payout breakdown and the pages.
- The host ledger and config store are not modelled. They are outside the plugin. A balance is an integer passed in, and the command returns the new balance. The leaderboard ranking is the host's list, taken as given.
- Swallowed ledger exceptions other than the refused negative amount are left out, because they depend on the host's internals. An example is a failed `get_balance` in the tax sweep, which reads as 0.
- Concurrency and the read-then-write window between reading a balance and writing it back are left out. The model is sequential by design.
- `prune` and the `atxbankset` setters (`reset`, `workpayout`, `workcooldown` and the role and channel setters) are left out. They only store configuration. The `min > max` case they would reject is still handled by `Payout.Work`.
- The Nitro prize message and the announcement channel are left out. This is a non-monetary early return, modelled only as "no deposit".
- The Lv40, Lv50, Lv70 and Lv100 flags that `work` computes (lines 326-347) are left out. No payout rule reads them.
- The `if not target` help path of `addmoney` and `removemoney` is left out. The argument converter decides it before any rule runs.
- The global-bank branch of the leaderboard is left out. `show_global` is always false there.
- A NaN percentage is left out. It passes the check at line 735, but `real` has no NaN.
- A NaN or infinite `massmoney numeric` amount is left out. It passes the check at line 798, and then `int(amount)` at line 806 raises. `real` has neither value.
- Cooldown.CheckWork: time is whole seconds. The source stores `time.time()` as a float, so fractional seconds of the timestamp and of the wait are dropped.
- Taxes.TaxAmount: uses the exact integer percentage `balance * rate / 100`. The source uses the float product `int(balance * 0.30)` (and 0.15, 0.10, 0.05, 0.02). The two agree for ordinary balances. Only for balances beyond about 10^15 does the double's rounding make them differ, in either direction and by several units.
- Payout.JackpotBonus: rounds the exact rational `running * k / 10`, half to even. The source rounds the float product `running * (k / 10)`, which can differ on ties that the float does not represent exactly.
- Draw.Award: the amount is an exact `real`. What the host ledger does with a fractional deposit (Lv70) or one above the maximum is not modelled. The `drawpayout` setter (lines 108-113) accepts a negative payout; the deposit at line 624 then raises outside any `try` and the draw command fails, while the model returns a `Prize` with a negative amount.
- Admin.MassNumeric: the amount is an exact `real`. The source's float can carry representation error before `int()` truncates it.

=== FILE: admin.dfy ===
/** Administrative balance adjustments: a single member (`addmoney`,
    `removemoney`) or every human of the guild or of a role (`massmoney numeric`,
    `massmoney percent`). Which members are targeted is the caller's list
    `accounts`; amounts typed as floats in the source are `real` here. */
module Admin {
  import opened Basics
  import opened Guild
  import opened Sweeps
  import opened Ledger

  /** The reasons a command refuses to run, in the order it reports them. */
  datatype Refusal = NotPositive | BotTarget | UnknownAction | InvalidAmount | InvalidPercent

  datatype Outcome<T> = Done(value: T) | Refused(reasons: seq<Refusal>)

  /** `manageuser addmoney` (atxbank/atxbank.py:634-671). */
  function AddMoney(amount: int, target: Member, balance: int, maxBal: int): (r: Outcome<int>)
    ensures amount <= 0 ==> r == Refused([NotPositive])
    ensures 0 < amount && target.isBot ==> r == Refused([BotTarget])
    ensures r.Done? <==> 0 < amount && !target.isBot
    ensures r.Done? ==> r.value == Min(balance + amount, maxBal) && r.value <= maxBal
    ensures r.Done? && balance <= maxBal ==> balance < r.value || r.value == maxBal
  {
    if amount <= 0 then Refused([NotPositive])
    else if target.isBot then Refused([BotTarget])
    else Done(Credit(balance, amount, maxBal))
  }

  /** `manageuser removemoney` (atxbank/atxbank.py:676-713). */
  function RemoveMoney(amount: int, target: Member, balance: int): (r: Outcome<int>)
    ensures amount <= 0 ==> r == Refused([NotPositive])
    ensures 0 < amount && target.isBot ==> r == Refused([BotTarget])
    ensures r.Done? <==> 0 < amount && !target.isBot
    ensures r.Done? ==> r.value == Max(balance - amount, 0) && 0 <= r.value
    ensures r.Done? && 0 <= balance ==> r.value < balance || r.value == 0
  {
    if amount <= 0 then Refused([NotPositive])
    else if target.isBot then Refused([BotTarget])
    else Done(Debit(balance, amount))
  }

  /** Giving and then taking back the same positive amount restores a balance the
      cap and floor did not touch. */
  lemma AddThenRemoveRestores(amount: int, target: Member, balance: int, maxBal: int)
    requires 0 < amount && !target.isBot && 0 <= balance && balance + amount <= maxBal
    ensures RemoveMoney(amount, target, AddMoney(amount, target, balance, maxBal).value) == Done(balance)
  {
  }

  datatype Action = Income | Deduction

  /** The action keyword of the mass commands (atxbank/atxbank.py:732, 795). */
  function ParseAction(word: string): (a: Option<Action>)
    ensures a == Some(Income) <==> word == "income"
    ensures a == Some(Deduction) <==> word == "deduction"
    ensures a == None <==> word != "income" && word != "deduction"
  {
    if word == "income" then Some(Income)
    else if word == "deduction" then Some(Deduction)
    else None
  }

  /** One member's adjustment: capped credit for income, floored debit for deduction. */
  function Adjust(action: Action, current: int, delta: int, maxBal: int): (r: int)
    requires 0 <= delta
    ensures action == Income ==> r == Min(current + delta, maxBal)
    ensures action == Deduction ==> r == Max(current - delta, 0)
  {
    match action
    case Income => Credit(current, delta, maxBal)
    case Deduction => Debit(current, delta)
  }

  /** The refusals of `massmoney numeric`, both reported when both apply
      (atxbank/atxbank.py:795-800). */
  function NumericRefusals(amount: real, word: string): (rs: seq<Refusal>)
    ensures UnknownAction in rs <==> ParseAction(word).None?
    ensures InvalidAmount in rs <==> amount < 0.0
    ensures forall i :: 0 <= i < |rs| ==> rs[i] == UnknownAction || rs[i] == InvalidAmount
    ensures |rs| == (if ParseAction(word).None? then 1 else 0) + (if amount < 0.0 then 1 else 0)
    ensures |rs| == 2 ==> rs[0] == UnknownAction
  {
    (if ParseAction(word).None? then [UnknownAction] else [])
    + (if amount < 0.0 then [InvalidAmount] else [])
  }

  /** `massmoney numeric` (atxbank/atxbank.py:795-843): the float amount is
      truncated to whole units once, then every human in the list is adjusted
      and every bot is skipped. Zero is accepted. */
  function MassNumeric(accounts: seq<Account>, amount: real, word: string, maxBal: int): (r: Outcome<seq<int>>)
    ensures r.Refused? <==> ParseAction(word).None? || amount < 0.0
    ensures r.Refused? ==> r.reasons == NumericRefusals(amount, word)
    ensures r.Done? ==> |r.value| == |accounts|
    ensures r.Done? ==> forall i :: 0 <= i < |accounts| && accounts[i].member.isBot ==> r.value[i] == accounts[i].balance
    ensures r.Done? ==> forall i :: 0 <= i < |accounts| && !accounts[i].member.isBot ==>
              r.value[i] == Adjust(ParseAction(word).value, accounts[i].balance, amount.Floor, maxBal)
  {
    var refusals := NumericRefusals(amount, word);
    if refusals != [] then Refused(refusals)
    else
      var action := ParseAction(word).value;
      var delta := Trunc(amount);
      Done(Sweep(accounts, b => Adjust(action, b, delta, maxBal)))
  }

  /** A mass adjustment of less than one whole unit changes no balance that is
      within the ledger's bounds, in either direction. */
  lemma MassNumericBelowOneIsNoOp(accounts: seq<Account>, amount: real, word: string, maxBal: int)
    requires 0.0 <= amount < 1.0 && ParseAction(word).Some?
    requires forall i :: 0 <= i < |accounts| ==> 0 <= accounts[i].balance <= maxBal
    ensures MassNumeric(accounts, amount, word, maxBal).Done?
    ensures forall i :: 0 <= i < |accounts| ==> MassNumeric(accounts, amount, word, maxBal).value[i] == accounts[i].balance
  {
  }

  /** The refusals of `massmoney percent` (atxbank/atxbank.py:732-737). */
  function PercentRefusals(percent: real, word: string): (rs: seq<Refusal>)
    ensures UnknownAction in rs <==> ParseAction(word).None?
    ensures InvalidPercent in rs <==> percent > 1.0 || percent < 0.0
    ensures forall i :: 0 <= i < |rs| ==> rs[i] == UnknownAction || rs[i] == InvalidPercent
    ensures |rs| == (if ParseAction(word).None? then 1 else 0) + (if percent > 1.0 || percent < 0.0 then 1 else 0)
    ensures |rs| == 2 ==> rs[0] == UnknownAction
  {
    (if ParseAction(word).None? then [UnknownAction] else [])
    + (if percent > 1.0 || percent < 0.0 then [InvalidPercent] else [])
  }

  /** `massmoney percent` as written (atxbank/atxbank.py:730-780): the delta reads
      the undefined name `amount`, the bare `except` swallows the error for every
      member, and no balance changes. */
  function MassPercentAsWritten(accounts: seq<Account>, percent: real, word: string): (r: Outcome<seq<int>>)
    ensures r.Refused? <==> ParseAction(word).None? || percent > 1.0 || percent < 0.0
    ensures r.Refused? ==> r.reasons == PercentRefusals(percent, word)
    ensures r.Done? ==> |r.value| == |accounts| && forall i :: 0 <= i < |accounts| ==> r.value[i] == accounts[i].balance
  {
    var refusals := PercentRefusals(percent, word);
    if refusals != [] then Refused(refusals)
    else Done(Sweep(accounts, b => b))
  }

  /** `massmoney percent` as intended: each human's delta is `int(balance * percent)`. */
  function MassPercent(accounts: seq<Account>, percent: real, word: string, maxBal: int): (r: Outcome<seq<int>>)
    ensures r.Refused? <==> ParseAction(word).None? || percent > 1.0 || percent < 0.0
    ensures r.Refused? ==> r.reasons == PercentRefusals(percent, word)
    ensures r.Done? ==> |r.value| == |accounts|
    ensures r.Done? ==> forall i :: 0 <= i < |accounts| && accounts[i].member.isBot ==> r.value[i] == accounts[i].balance
    ensures r.Done? ==> forall i :: 0 <= i < |accounts| && !accounts[i].member.isBot && 0 <= accounts[i].balance ==>
              var delta := (accounts[i].balance as real * percent).Floor;
              0 <= delta <= accounts[i].balance
              && r.value[i] == Adjust(ParseAction(word).value, accounts[i].balance, delta, maxBal)
  {
    var refusals := PercentRefusals(percent, word);
    if refusals != [] then Refused(refusals)
    else
      var action := ParseAction(word).value;
      Done(Sweep(accounts, b => Adjust(action, b, PercentDelta(b, percent), maxBal)))
  }

  /** `int(balance * percent)`, kept non-negative for the debt-free balances the
      ledger holds. */
  function PercentDelta(balance: int, percent: real): (delta: int)
    requires 0.0 <= percent <= 1.0
    ensures 0 <= balance ==> delta == (balance as real * percent).Floor && 0 <= delta <= balance
    ensures 0 <= delta
  {
    if balance < 0 then 0
    else
      assert 0.0 <= balance as real * percent <= balance as real;
      Trunc(balance as real * percent)
  }

  /** A ten percent deduction takes 1000 down to 900 as intended, while the code
      as written leaves it at 1000. */
  lemma TenPercentDeduction(m: Member, maxBal: int)
    requires !m.isBot && 1000 <= maxBal
    ensures MassPercent([Account(m, 1000)], 0.1, "deduction", maxBal) == Done([900])
    ensures MassPercentAsWritten([Account(m, 1000)], 0.1, "deduction") == Done([1000])
  {
    var accounts := [Account(m, 1000)];
    assert ParseAction("deduction") == Some(Deduction);
    assert (1000 as real * 0.1).Floor == 100;
    var r := MassPercent(accounts, 0.1, "deduction", maxBal);
    assert r.Done? && |r.value| == 1 && r.value[0] == 900;
    assert r.value == [900];
    var w := MassPercentAsWritten(accounts, 0.1, "deduction");
    assert w.Done? && |w.value| == 1 && w.value[0] == 1000;
    assert w.value == [1000];
  }
}

=== FILE: basics.dfy ===
/** Small helpers shared by every component of the bank model. */
module Basics {

  /** A value that a lookup may not find. */
  datatype Option<+T> = None | Some(value: T)

  function Min(a: int, b: int): int {
    if a <= b then a else b
  }

  function Max(a: int, b: int): int {
    if a >= b then a else b
  }

  /** Python's `int(x)` on a float: truncation toward zero. */
  function Trunc(x: real): (r: int)
    ensures x >= 0.0 ==> r as real <= x < r as real + 1.0
    ensures x < 0.0 ==> r as real - 1.0 < x <= r as real
  {
    if x >= 0.0 then x.Floor else -((-x).Floor)
  }
}

=== FILE: cooldown.dfy ===
/** The work cooldown: whether a member may work now, and how the remaining wait
    is split into days, hours, minutes and seconds for display. Times are whole
    seconds; the host clock becomes the parameter `now`. */
module Cooldown {

  /** The stored `work_lastused` value: a timestamp in seconds, or a string, which
      the work command accepts as well (atxbank/atxbank.py:282). `Stamp(0)` is the
      "never worked" default. */
  datatype LastUse = Stamp(seconds: int) | Text(text: string)

  const Never: LastUse := Stamp(0)

  const SecondsPerMinute: int := 60
  const SecondsPerHour: int := 3600
  const SecondsPerDay: int := 86400

  /** The earliest time at which a member who last worked at `last` may work again. */
  function NextWork(last: int, cooldownHrs: int): int {
    last + cooldownHrs * SecondsPerHour
  }

  datatype Verdict = Allowed | Denied(remaining: int)

  /** The permission check of the work command (atxbank/atxbank.py:282-290). */
  function CheckWork(last: LastUse, cooldownHrs: int, now: int): (v: Verdict)
    ensures v.Allowed? <==> last == Never || last.Text? || now >= NextWork(last.seconds, cooldownHrs)
    ensures v.Denied? ==> last.Stamp? && 0 < v.remaining && now + v.remaining == NextWork(last.seconds, cooldownHrs)
  {
    match last
    case Text(_) => Allowed
    case Stamp(t) =>
      if t == 0 then Allowed
      else if now >= NextWork(t, cooldownHrs) then Allowed
      else Denied(NextWork(t, cooldownHrs) - now)
  }

  /** Once the cooldown has elapsed it stays elapsed: waiting longer never turns
      permission into a denial. */
  lemma AllowedStaysAllowed(last: LastUse, cooldownHrs: int, now: int, later: int)
    requires CheckWork(last, cooldownHrs, now).Allowed?
    requires now <= later
    ensures CheckWork(last, cooldownHrs, later).Allowed?
  {
  }

  /** The cooldown boundary for the default 24 hours: one second short is a
      denial with one second left, the exact second is a permission. */
  lemma DefaultCooldownBoundary(last: int)
    requires last != 0
    ensures CheckWork(Stamp(last), 24, last + 86399) == Denied(1)
    ensures CheckWork(Stamp(last), 24, last + 86400) == Allowed
  {
  }

  /** A span of time split into whole units. */
  datatype Duration = Duration(days: int, hours: int, mins: int, secs: int)

  function Seconds(d: Duration): int {
    d.days * SecondsPerDay + d.hours * SecondsPerHour + d.mins * SecondsPerMinute + d.secs
  }

  /** Every unit below the day is within its natural range; the day count is free
      (and negative for a negative span). */
  predicate Normalized(d: Duration) {
    0 <= d.hours < 24 && 0 <= d.mins < 60 && 0 <= d.secs < 60
  }

  /** Python's chained floor `divmod` by 86400, 3600 and 60
      (atxbank/atxbank.py:293-295, 418-420). Dafny's `/` and `%` by a positive
      divisor round toward negative infinity exactly as Python's do. */
  function Decompose(remaining: int): (d: Duration)
    ensures Seconds(d) == remaining
    ensures Normalized(d)
    ensures remaining >= 0 <==> d.days >= 0
  {
    var days := remaining / SecondsPerDay;
    var rest := remaining % SecondsPerDay;
    var hours := rest / SecondsPerHour;
    var rest2 := rest % SecondsPerHour;
    Duration(days, hours, rest2 / SecondsPerMinute, rest2 % SecondsPerMinute)
  }

  /** The decomposition is the only normalized duration of that length. */
  lemma DecomposeUnique(remaining: int, d: Duration)
    requires Seconds(d) == remaining && Normalized(d)
    ensures d == Decompose(remaining)
  {
    var e := Decompose(remaining);
    var below := d.hours * SecondsPerHour + d.mins * SecondsPerMinute + d.secs;
    assert 0 <= below < SecondsPerDay;
    assert d.days == remaining / SecondsPerDay && below == remaining % SecondsPerDay;
    var belowHour := d.mins * SecondsPerMinute + d.secs;
    assert 0 <= belowHour < SecondsPerHour;
    assert d.hours == e.hours;
    assert d.mins == e.mins;
  }

  /** One unit of the rendered wait message. */
  datatype Part = DaysPart(count: int) | HoursPart(count: int) | MinsPart(count: int)

  function Rank(p: Part): nat {
    match p
    case DaysPart(_) => 0
    case HoursPart(_) => 1
    case MinsPart(_) => 2
  }

  /** The units a wait message names: days, hours and minutes, in that order, each
      only when its count is positive; seconds are never shown
      (atxbank/atxbank.py:297-302, 422-427). */
  function WaitParts(d: Duration): (ps: seq<Part>)
    ensures DaysPart(d.days) in ps <==> d.days > 0
    ensures HoursPart(d.hours) in ps <==> d.hours > 0
    ensures MinsPart(d.mins) in ps <==> d.mins > 0
    ensures forall i :: 0 <= i < |ps| ==> 0 < ps[i].count && ps[i] in {DaysPart(d.days), HoursPart(d.hours), MinsPart(d.mins)}
    ensures forall i, j :: 0 <= i < j < |ps| ==> Rank(ps[i]) < Rank(ps[j])
  {
    (if d.days > 0 then [DaysPart(d.days)] else [])
    + (if d.hours > 0 then [HoursPart(d.hours)] else [])
    + (if d.mins > 0 then [MinsPart(d.mins)] else [])
  }

  /** What the balance command's footer says about working. */
  datatype Notice = CanWorkNow | WaitFor(parts: seq<Part>) | Crashed

  /** The balance command's footer as written (atxbank/atxbank.py:413-432). The
      guard `last_work != 0 or not isinstance(last_work, str)` holds for every
      stored value, so the wait is always computed: from a string the addition
      raises and the command fails, and from an elapsed cooldown the floor
      `divmod` of the negative remainder yields positive hours and minutes. */
  function BalanceNoticeAsWritten(last: LastUse, cooldownHrs: int, now: int): (n: Notice)
    ensures n.Crashed? <==> last.Text?
    ensures last.Stamp? && n.WaitFor? ==> n.parts == WaitParts(Decompose(NextWork(last.seconds, cooldownHrs) - now))
    ensures last.Stamp? ==>
              var remaining := NextWork(last.seconds, cooldownHrs) - now;
              (n.CanWorkNow? <==> remaining < SecondsPerDay && remaining % SecondsPerDay < SecondsPerMinute)
  {
    match last
    case Text(_) => Crashed
    case Stamp(t) =>
      var parts := WaitParts(Decompose(NextWork(t, cooldownHrs) - now));
      if parts == [] then CanWorkNow else WaitFor(parts)
  }

  /** A member who never worked may work, yet the footer as written tells them to
      wait 20 hours 13 minutes. */
  lemma SentinelShowsWait()
    ensures CheckWork(Never, 24, 100000) == Allowed
    ensures BalanceNoticeAsWritten(Never, 24, 100000) == WaitFor([HoursPart(20), MinsPart(13)])
  {
    var d := Decompose(86400 - 100000);
    DecomposeUnique(86400 - 100000, Duration(-1, 20, 13, 20));
    assert d == Duration(-1, 20, 13, 20);
  }

  /** Whenever the cooldown ran out less than 23 hours 59 minutes ago, the footer
      as written still shows a wait although work is allowed. */
  lemma ElapsedCooldownShowsWait(t: int, cooldownHrs: int, now: int)
    requires t != 0
    requires NextWork(t, cooldownHrs) - now < 0
    requires NextWork(t, cooldownHrs) - now >= -(SecondsPerDay - SecondsPerMinute)
    ensures CheckWork(Stamp(t), cooldownHrs, now) == Allowed
    ensures BalanceNoticeAsWritten(Stamp(t), cooldownHrs, now).WaitFor?
  {
    var remaining := NextWork(t, cooldownHrs) - now;
    var d := Decompose(remaining);
    DecomposeUnique(remaining, d);
    assert d.days == -1;
    assert d.hours > 0 || d.mins > 0;
  }

  /** The footer as intended: a wait is shown exactly when the work command would
      refuse, and it names the same units the work command's refusal names. */
  function BalanceNotice(last: LastUse, cooldownHrs: int, now: int): (n: Notice)
    ensures !n.Crashed?
    ensures n.CanWorkNow? <==> CheckWork(last, cooldownHrs, now).Allowed?
    ensures n.WaitFor? ==> n.parts == WaitParts(Decompose(CheckWork(last, cooldownHrs, now).remaining))
    ensures n.WaitFor? ==> forall p :: p in n.parts ==> 0 < p.count
  {
    match CheckWork(last, cooldownHrs, now)
    case Allowed => CanWorkNow
    case Denied(remaining) => WaitFor(WaitParts(Decompose(remaining)))
  }

  /** What the balance command reports, or that it failed before reporting. */
  datatype BalanceReport = BalanceReport(shown: int, reset: bool, notice: Notice) | BalanceFailed

  /** The balance command as written (atxbank/atxbank.py:406-436). A stored string
      makes the footer's addition at line 416 raise, so the command fails before
      the reset at lines 434-436 and nothing is reported or reset. */
  function BalanceAsWritten(bal: int, maxBal: int, last: LastUse, cooldownHrs: int, now: int): (r: BalanceReport)
    ensures r.BalanceFailed? <==> last.Text?
    ensures r.BalanceReport? ==>
              && r.shown <= maxBal
              && (r.reset <==> bal > maxBal)
              && (r.reset ==> r.shown == maxBal)
              && (!r.reset ==> r.shown == bal)
              && r.notice == BalanceNoticeAsWritten(last, cooldownHrs, now)
  {
    match BalanceNoticeAsWritten(last, cooldownHrs, now)
    case Crashed => BalanceFailed
    case n => BalanceReport(if bal > maxBal then maxBal else bal, bal > maxBal, n)
  }

  /** The balance command as intended: a balance above the guild maximum is shown
      as, and reset to, the maximum, and the footer agrees with the work command
      (atxbank/atxbank.py:406-436 with the guard of line 415 corrected). */
  function Balance(bal: int, maxBal: int, last: LastUse, cooldownHrs: int, now: int): (r: BalanceReport)
    ensures r.BalanceReport?
    ensures r.shown <= maxBal
    ensures r.reset <==> bal > maxBal
    ensures r.reset ==> r.shown == maxBal
    ensures !r.reset ==> r.shown == bal
    ensures r.notice == BalanceNotice(last, cooldownHrs, now)
  {
    BalanceReport(if bal > maxBal then maxBal else bal, bal > maxBal, BalanceNotice(last, cooldownHrs, now))
  }

  /** For a stored timestamp, the command as written and as intended show and reset
      the same balance; they differ only in the footer. */
  lemma BalanceAgreesOnStamps(bal: int, maxBal: int, t: int, cooldownHrs: int, now: int)
    ensures BalanceAsWritten(bal, maxBal, Stamp(t), cooldownHrs, now).BalanceReport?
    ensures BalanceAsWritten(bal, maxBal, Stamp(t), cooldownHrs, now).shown == Balance(bal, maxBal, Stamp(t), cooldownHrs, now).shown
    ensures BalanceAsWritten(bal, maxBal, Stamp(t), cooldownHrs, now).reset == Balance(bal, maxBal, Stamp(t), cooldownHrs, now).reset
  {
  }

  /** A member whose stored timestamp is a string and whose balance is above the
      maximum keeps that balance as written, while the intended command resets it. */
  lemma StringTimestampSkipsReset()
    ensures BalanceAsWritten(50, 10, Text("x"), 24, 0).BalanceFailed?
    ensures Balance(50, 10, Text("x"), 24, 0).reset
    ensures Balance(50, 10, Text("x"), 24, 0).shown == 10
  {
  }
}

=== FILE: draw.dfy ===
/** The lottery draw: a pool weighted by duplication, a winner picked from it, and
    the winner's prize. The shuffle-then-choice of the source is a uniform pick of
    one pool position, so the pick arrives as the index `pick`; the Nitro roll
    (`random.choice(range(1, 11))`) arrives as `nitroRoll`. */
module Draw {
  import opened Guild

  /** The roles that each add one draw entry (atxbank/atxbank.py:576-587). */
  const TierRoles: set<RoleId> := {Lv20Role, Lv30Role, Lv40Role, Lv50Role}

  /** Members of `ms` that hold `role`, in order. */
  function HoldersOf(ms: seq<Member>, role: RoleId): (hs: seq<Member>)
    ensures forall m :: m in hs <==> m in ms && Holds(m, role)
    ensures forall m {:trigger multiset(hs)[m]} :: multiset(hs)[m] == if Holds(m, role) then multiset(ms)[m] else 0
    ensures |hs| <= |ms|
  {
    if ms == [] then []
    else
      assert ms == [ms[0]] + ms[1..];
      (if Holds(ms[0], role) then [ms[0]] else []) + HoldersOf(ms[1..], role)
  }

  /** The members a draw considers (atxbank/atxbank.py:555-559): the holders of the
      required role when the guild has such a role; otherwise the lookup yields
      nothing, reading its member list raises, and the whole guild is used. */
  function DrawMembers(guildMembers: seq<Member>, guildRoles: set<RoleId>, requiredRole: RoleId): (ms: seq<Member>)
    ensures requiredRole !in guildRoles ==> ms == guildMembers
    ensures requiredRole in guildRoles ==> forall m :: m in ms <==> m in guildMembers && Holds(m, requiredRole)
    ensures requiredRole in guildRoles ==>
              forall m :: multiset(ms)[m] == if Holds(m, requiredRole) then multiset(guildMembers)[m] else 0
  {
    if requiredRole in guildRoles then HoldersOf(guildMembers, requiredRole) else guildMembers
  }

  /** Humans other than the guild owner may win (atxbank/atxbank.py:571). */
  predicate Eligible(m: Member, ownerId: MemberId) {
    !m.isBot && m.id != ownerId
  }

  function EligibleMembers(ms: seq<Member>, ownerId: MemberId): (es: seq<Member>)
    ensures forall m :: m in es <==> m in ms && Eligible(m, ownerId)
    ensures forall m {:trigger multiset(es)[m]} :: multiset(es)[m] == if Eligible(m, ownerId) then multiset(ms)[m] else 0
  {
    if ms == [] then []
    else
      assert ms == [ms[0]] + ms[1..];
      (if Eligible(ms[0], ownerId) then [ms[0]] else []) + EligibleMembers(ms[1..], ownerId)
  }

  /** How many of `roles` are tier roles, counting each listed role once. */
  function TierCount(roles: seq<RoleId>): nat {
    if roles == [] then 0 else (if roles[0] in TierRoles then 1 else 0) + TierCount(roles[1..])
  }

  /** The extra entries of `m`: one copy for every tier role in its role list. */
  function TierEntries(m: Member, roles: seq<RoleId>): (es: seq<Member>)
    ensures |es| == TierCount(roles)
    ensures forall x :: x in es ==> x == m
  {
    if roles == [] then []
    else (if roles[0] in TierRoles then [m] else []) + TierEntries(m, roles[1..])
  }

  /** All entries of `m`: the baseline one and the tier extras (atxbank/atxbank.py:572-587). */
  function Entries(m: Member): seq<Member> {
    [m] + TierEntries(m, m.roles)
  }

  /** The weighted pool (atxbank/atxbank.py:570-587). */
  function Pool(ms: seq<Member>, ownerId: MemberId): (pool: seq<Member>)
    ensures forall x :: x in pool ==> x in ms && Eligible(x, ownerId)
    ensures |EligibleMembers(ms, ownerId)| <= |pool|
  {
    if ms == [] then []
    else (if Eligible(ms[0], ownerId) then Entries(ms[0]) else []) + Pool(ms[1..], ownerId)
  }

  /** A sequence whose every element is `m` holds `m` as often as it is long. */
  lemma {:induction false} UniformCount(s: seq<Member>, m: Member, x: Member)
    requires forall y :: y in s ==> y == m
    ensures multiset(s)[x] == if x == m then |s| else 0
  {
    if s != [] {
      assert s == [s[0]] + s[1..];
      assert s[0] in s;
      assert forall y :: y in s[1..] ==> y in s;
      UniformCount(s[1..], m, x);
      assert multiset(s) == multiset([s[0]]) + multiset(s[1..]);
    }
  }

  /** `n` copies of `w` added up, so that the induction below stays free of
      multiplication. */
  function Repeat(n: nat, w: nat): nat {
    if n == 0 then 0 else w + Repeat(n - 1, w)
  }

  lemma {:induction false} RepeatIsProduct(n: nat, w: nat)
    ensures Repeat(n, w) == n * w
  {
    if n > 0 {
      RepeatIsProduct(n - 1, w);
    }
  }

  /** A member's number of pool entries: one plus one per tier role listed when
      eligible, none otherwise. */
  function Weight(m: Member, ownerId: MemberId): nat {
    if Eligible(m, ownerId) then 1 + TierCount(m.roles) else 0
  }

  lemma {:induction false} PoolCount(ms: seq<Member>, ownerId: MemberId, m: Member)
    ensures multiset(Pool(ms, ownerId))[m] == Repeat(multiset(ms)[m], Weight(m, ownerId))
  {
    if ms != [] {
      var w := Weight(m, ownerId);
      PoolCount(ms[1..], ownerId, m);
      SplitCounts(ms, ownerId, m);
      if ms[0] == m {
        assert Repeat(multiset(ms)[m], w) == w + Repeat(multiset(ms[1..])[m], w);
      }
    }
  }

  /** How the first listed member and the rest share the counts. */
  lemma SplitCounts(ms: seq<Member>, ownerId: MemberId, m: Member)
    requires ms != []
    ensures multiset(Pool(ms, ownerId))[m]
            == (if ms[0] == m then Weight(m, ownerId) else 0) + multiset(Pool(ms[1..], ownerId))[m]
    ensures multiset(ms)[m] == (if ms[0] == m then 1 else 0) + multiset(ms[1..])[m]
  {
    var x, rest := ms[0], ms[1..];
    var head := if Eligible(x, ownerId) then Entries(x) else [];
    HeadCount(x, ownerId, m);
    assert Pool(ms, ownerId) == head + Pool(rest, ownerId);
    assert multiset(head + Pool(rest, ownerId)) == multiset(head) + multiset(Pool(rest, ownerId));
    assert ms == [x] + rest;
    assert multiset(ms) == multiset([x]) + multiset(rest);
  }

  /** Weighting by duplication: each eligible member is in the pool once plus once
      per tier role held, as many times over as it is listed; nobody else is in it. */
  lemma PoolMultiplicity(ms: seq<Member>, ownerId: MemberId, m: Member)
    ensures multiset(Pool(ms, ownerId))[m] == multiset(ms)[m] * Weight(m, ownerId)
  {
    var n, w := multiset(ms)[m], Weight(m, ownerId);
    PoolCount(ms, ownerId, m);
    RepeatIsProduct(n, w);
  }

  /** The entries one listed member contributes hold `m` as often as `m`'s weight
      when that member is `m`, and never otherwise. */
  lemma HeadCount(x: Member, ownerId: MemberId, m: Member)
    ensures multiset(if Eligible(x, ownerId) then Entries(x) else [])[m]
            == if x == m && Eligible(m, ownerId) then 1 + TierCount(m.roles) else 0
  {
    if Eligible(x, ownerId) {
      UniformCount(Entries(x), x, m);
    }
  }

  function Indicator(b: bool): nat {
    if b then 1 else 0
  }

  /** With no role listed twice, the tier count is the number of the four tier
      roles the member holds. */
  lemma {:induction false} TierCountIsTiersHeld(roles: seq<RoleId>)
    requires DistinctRoles(roles)
    ensures TierCount(roles)
            == Indicator(Lv20Role in roles) + Indicator(Lv30Role in roles)
             + Indicator(Lv40Role in roles) + Indicator(Lv50Role in roles)
  {
    if roles != [] {
      var r, rest := roles[0], roles[1..];
      assert DistinctRoles(rest) by {
        forall i, j | 0 <= i < j < |rest| ensures rest[i] != rest[j] {
          assert rest[i] == roles[i + 1] && rest[j] == roles[j + 1];
        }
      }
      TierCountIsTiersHeld(rest);
      assert r !in rest by {
        forall i | 0 <= i < |rest| ensures rest[i] != r {
          assert rest[i] == roles[i + 1];
        }
      }
      assert roles == [r] + rest;
      assert forall t :: t in roles <==> t == r || t in rest;
    }
  }

  /** The Lv70 and Lv100 boosts, applied in that order (atxbank/atxbank.py:616-621). */
  function Multiplier(m: Member): (f: real)
    ensures f == 1.0 || f == 1.5 || f == 2.0 || f == 3.0
    ensures f >= 1.0
    ensures f == 1.0 <==> !Holds(m, Lv70Role) && !Holds(m, Lv100Role)
    ensures f == 3.0 <==> Holds(m, Lv70Role) && Holds(m, Lv100Role)
    ensures Holds(m, Lv70Role) && !Holds(m, Lv100Role) ==> f == 1.5
    ensures !Holds(m, Lv70Role) && Holds(m, Lv100Role) ==> f == 2.0
  {
    var afterLv70 := if Holds(m, Lv70Role) then 1.5 else 1.0;
    if Holds(m, Lv100Role) then afterLv70 * 2.0 else afterLv70
  }

  /** Whether the winner gets the one-in-ten Nitro chance, as written
      (atxbank/atxbank.py:597-603): the booster test compares a role's integer
      identifier with the role object the lookup returned, which is never equal,
      so only the Lv50 role grants the chance. */
  predicate NitroChanceAsWritten(m: Member, boosterRole: RoleId) {
    Holds(m, Lv50Role)
  }

  /** Whether the winner gets the Nitro chance, as intended: booster or Lv50. */
  predicate NitroChance(m: Member, boosterRole: RoleId) {
    Holds(m, boosterRole) || Holds(m, Lv50Role)
  }

  datatype DrawConfig = DrawConfig(payout: int, boosterRole: RoleId)

  /** No draw; a Nitro prize that replaces the money; or a deposit of `amount`. */
  datatype DrawOutcome = TooFewEligible | NitroPrize(winner: Member) | Prize(winner: Member, amount: real)

  /** Resolving a drawn winner: the Nitro chance first, then the boosts. The
      deposit is not capped at the maximum balance. */
  function Award(cfg: DrawConfig, winner: Member, nitroChance: bool, nitroRoll: int): (o: DrawOutcome)
    ensures o.NitroPrize? <==> nitroChance && nitroRoll == 10
    ensures !o.TooFewEligible? && o.winner == winner
    ensures o.Prize? ==> o.amount == cfg.payout as real * Multiplier(winner)
  {
    if nitroChance && nitroRoll == 10 then NitroPrize(winner)
    else Prize(winner, cfg.payout as real * Multiplier(winner))
  }

  predicate ValidPick(ms: seq<Member>, ownerId: MemberId, pick: nat, nitroRoll: int) {
    (|EligibleMembers(ms, ownerId)| > 1 ==> pick < |Pool(ms, ownerId)|) && 1 <= nitroRoll <= 10
  }

  /** The draw as written (atxbank/atxbank.py:570-624). */
  function DrawAsWritten(cfg: DrawConfig, ms: seq<Member>, ownerId: MemberId, pick: nat, nitroRoll: int): (o: DrawOutcome)
    requires ValidPick(ms, ownerId, pick, nitroRoll)
    ensures o.TooFewEligible? <==> |EligibleMembers(ms, ownerId)| <= 1
    ensures |EligibleMembers(ms, ownerId)| > 1 ==>
              && o.winner == Pool(ms, ownerId)[pick]
              && (o.NitroPrize? <==> Holds(o.winner, Lv50Role) && nitroRoll == 10)
    ensures o.Prize? ==> o.amount == cfg.payout as real * Multiplier(o.winner)
  {
    if |EligibleMembers(ms, ownerId)| > 1 then
      var winner := Pool(ms, ownerId)[pick];
      Award(cfg, winner, NitroChanceAsWritten(winner, cfg.boosterRole), nitroRoll)
    else TooFewEligible
  }

  /** A booster who holds no Lv50 role can never win Nitro as written, while the
      intended draw gives them the chance. */
  lemma BoosterMissesNitroAsWritten(cfg: DrawConfig, ms: seq<Member>, ownerId: MemberId, pick: nat)
    requires ValidPick(ms, ownerId, pick, 10)
    requires |EligibleMembers(ms, ownerId)| > 1
    requires Holds(Pool(ms, ownerId)[pick], cfg.boosterRole) && !Holds(Pool(ms, ownerId)[pick], Lv50Role)
    ensures DrawAsWritten(cfg, ms, ownerId, pick, 10).Prize?
    ensures Draw(cfg, ms, ownerId, pick, 10).NitroPrize?
  {
  }

  /** The draw as intended (atxbank/atxbank.py:570-624, with the booster test of
      line 600 comparing identifiers). A draw happens only with more than one
      eligible member; the winner is an eligible draw member taken from the pool. */
  function Draw(cfg: DrawConfig, ms: seq<Member>, ownerId: MemberId, pick: nat, nitroRoll: int): (o: DrawOutcome)
    requires ValidPick(ms, ownerId, pick, nitroRoll)
    ensures o.TooFewEligible? <==> |EligibleMembers(ms, ownerId)| <= 1
    ensures |EligibleMembers(ms, ownerId)| > 1 ==>
              && o.winner == Pool(ms, ownerId)[pick]
              && o.winner in ms && Eligible(o.winner, ownerId)
              && (o.NitroPrize? <==> NitroChance(o.winner, cfg.boosterRole) && nitroRoll == 10)
    ensures o.Prize? ==> o.amount == cfg.payout as real * Multiplier(o.winner)
  {
    if |EligibleMembers(ms, ownerId)| > 1 then
      var winner := Pool(ms, ownerId)[pick];
      Award(cfg, winner, NitroChance(winner, cfg.boosterRole), nitroRoll)
    else TooFewEligible
  }

  lemma {:induction false} BotsAreIneligible(bots: seq<Member>, ownerId: MemberId)
    requires forall b :: b in bots ==> b.isBot
    ensures EligibleMembers(bots, ownerId) == []
  {
    if bots != [] {
      assert bots[0] in bots;
      assert forall b :: b in bots[1..] ==> b in bots;
      BotsAreIneligible(bots[1..], ownerId);
    }
  }

  /** A lone eligible member, whatever bots and owner are around, is the whole
      eligible list, so no draw takes place. */
  lemma LoneMemberNoDraw(m: Member, owner: Member, bots: seq<Member>)
    requires Eligible(m, owner.id)
    requires forall b :: b in bots ==> b.isBot
    ensures EligibleMembers([m, owner] + bots, owner.id) == [m]
  {
    var ms := [m, owner] + bots;
    assert ms[1..] == [owner] + bots && ms[1..][1..] == bots;
    BotsAreIneligible(bots, owner.id);
  }
}

=== FILE: guild.dfy ===
/** Guild members, their roles and their bank accounts, as the commands see them. */
module Guild {

  type RoleId = int
  type MemberId = int

  /** A guild member: identity, whether the account belongs to a bot, and the
      identifiers of the roles the member holds, in the order the host lists them. */
  datatype Member = Member(id: MemberId, isBot: bool, roles: seq<RoleId>)

  /** A member together with the balance the ledger reports for them. */
  datatype Account = Account(member: Member, balance: int)

  /** Level roles hard-wired into the work and draw commands (atxbank/atxbank.py:339-347, 576-587, 602-607). */
  const Lv20Role: RoleId := 717286501146427403
  const Lv30Role: RoleId := 717286636060409867
  const Lv40Role: RoleId := 717286702355316758
  const Lv50Role: RoleId := 802523066918764544
  const Lv70Role: RoleId := 802523620194779179
  const Lv100Role: RoleId := 802523775219662859

  predicate Holds(m: Member, role: RoleId) {
    role in m.roles
  }

  /** No role is listed twice for a member, as the host guarantees. */
  predicate DistinctRoles(roles: seq<RoleId>) {
    forall i, j :: 0 <= i < j < |roles| ==> roles[i] != roles[j]
  }
}

=== FILE: leaderboard.dfy ===
/** The leaderboard: the top accounts, their displayed balances clamped to the
    guild maximum, split into pages of ten with "Page k/N" footers. */
module Leaderboard {
  import opened Basics
  import opened Guild

  const PageSize: int := 10
  const DefaultTop: int := 10

  /** How many positions to ask for: anything below one becomes ten
      (atxbank/atxbank.py:171-172). */
  function EffectiveTop(top: int): (t: int)
    ensures 1 <= t
    ensures 1 <= top ==> t == top
    ensures top < 1 ==> t == DefaultTop
  {
    if top < 1 then DefaultTop else top
  }

  /** One ledger account as the host's leaderboard lists it. */
  datatype Entry = Entry(id: MemberId, balance: int)

  /** One line of a page: position, the balance shown, and whether it is the
      caller's own line (which the source highlights). */
  datatype Row = Row(pos: int, id: MemberId, shown: int, isAuthor: bool)

  /** The lines of the board (atxbank/atxbank.py:201-228). */
  function Rows(entries: seq<Entry>, maxBal: int, authorId: MemberId): (rows: seq<Row>)
    ensures |rows| == |entries|
    ensures forall i :: 0 <= i < |rows| ==>
              && rows[i].pos == i + 1
              && rows[i].id == entries[i].id
              && rows[i].shown <= maxBal
              && (entries[i].balance <= maxBal ==> rows[i].shown == entries[i].balance)
              && (entries[i].balance > maxBal ==> rows[i].shown == maxBal)
              && (rows[i].isAuthor <==> entries[i].id == authorId)
  {
    seq(|entries|, i requires 0 <= i < |entries| =>
      Row(i + 1, entries[i].id, Min(entries[i].balance, maxBal), entries[i].id == authorId))
  }

  /** The accounts whose stored balance the board resets to the maximum
      (atxbank/atxbank.py:212-215). */
  function Resets(entries: seq<Entry>, maxBal: int): (ids: seq<MemberId>)
    ensures forall id :: id in ids <==> exists i :: 0 <= i < |entries| && entries[i].id == id && entries[i].balance > maxBal
    ensures |ids| <= |entries|
  {
    if entries == [] then []
    else
      var rest := Resets(entries[1..], maxBal);
      assert forall i :: 0 < i < |entries| ==> entries[i] == entries[1..][i - 1];
      if entries[0].balance > maxBal then [entries[0].id] + rest else rest
  }

  /** A page of the board with its footer numbers. */
  datatype Page = Page(num: int, total: int, rows: seq<Row>)

  /** The rows of all pages, in page order. */
  function Flatten(pages: seq<Page>): seq<Row> {
    if pages == [] then [] else Flatten(pages[..|pages| - 1]) + pages[|pages| - 1].rows
  }

  /** `ceil(n / 10)`, the footer's page count (atxbank/atxbank.py:236, 252). */
  function PageCount(n: nat): nat {
    (n + PageSize - 1) / PageSize
  }

  lemma FlattenAppend(pages: seq<Page>, page: Page)
    ensures Flatten(pages + [page]) == Flatten(pages) + page.rows
  {
    assert (pages + [page])[..|pages|] == pages;
  }

  /** Whole pages plus a final partial one make `ceil(n / 10)` pages. */
  lemma PageCountSplit(n: nat)
    ensures n % PageSize == 0 ==> PageCount(n) == n / PageSize
    ensures n % PageSize != 0 ==> PageCount(n) == n / PageSize + 1
  {
  }

  /** Cut the rows into pages the way the source does: a page is closed after
      every tenth position and a final partial page is closed when rows are left
      over (atxbank/atxbank.py:229-257). */
  method Paginate(rows: seq<Row>) returns (pages: seq<Page>)
    ensures Flatten(pages) == rows
    ensures |pages| == PageCount(|rows|)
    ensures forall k :: 0 <= k < |pages| ==> pages[k].num == k + 1 && pages[k].total == |pages|
    ensures forall k :: 0 <= k < |pages| ==> 1 <= |pages[k].rows| <= PageSize
    ensures forall k :: 0 <= k < |pages| - 1 ==> |pages[k].rows| == PageSize
  {
    var total := PageCount(|rows|);
    pages := [];
    var current: seq<Row> := [];
    var i := 0;
    while i < |rows|
      invariant 0 <= i <= |rows|
      invariant Flatten(pages) + current == rows[..i]
      invariant |current| == i % PageSize
      invariant |pages| == i / PageSize
      invariant forall k :: 0 <= k < |pages| ==> pages[k] == Page(k + 1, total, pages[k].rows) && |pages[k].rows| == PageSize
    {
      assert rows[..i + 1] == rows[..i] + [rows[i]];
      current := current + [rows[i]];
      if (i + 1) % PageSize == 0 {
        var page := Page(|pages| + 1, total, current);
        FlattenAppend(pages, page);
        pages := pages + [page];
        current := [];
      }
      i := i + 1;
    }
    assert rows[..i] == rows;
    PageCountSplit(|rows|);
    if current != [] {
      var page := Page(|pages| + 1, total, current);
      FlattenAppend(pages, page);
      pages := pages + [page];
    }
  }

  /** What the board shows: nothing when the bank has no accounts, a failed
      command, or the pages with the accounts whose balance was reset. */
  datatype Board = NoAccounts | Failed | Pages(pages: seq<Page>, resets: seq<MemberId>)

  /** Every entry's balance is within the guild maximum. */
  predicate WithinMaximum(entries: seq<Entry>, maxBal: int) {
    forall i :: 0 <= i < |entries| ==> entries[i].balance <= maxBal
  }

  /** The accounts on a board need a reset exactly when one of them is above the
      maximum. */
  lemma {:induction false} NoResetsWithinMaximum(entries: seq<Entry>, maxBal: int)
    ensures Resets(entries, maxBal) == [] <==> WithinMaximum(entries, maxBal)
  {
    if entries != [] {
      NoResetsWithinMaximum(entries[1..], maxBal);
      assert forall i :: 0 < i < |entries| ==> entries[i] == entries[1..][i - 1];
      if !WithinMaximum(entries[1..], maxBal) {
        var j :| 0 <= j < |entries[1..]| && entries[1..][j].balance > maxBal;
        assert entries[j + 1].balance > maxBal;
      }
    }
  }

  /** The leaderboard command as written (atxbank/atxbank.py:169-266). The reset
      at line 215 calls `MOCK_MEMBER`, a name the file never defines or imports,
      so the first account above the maximum raises outside the name lookup's
      `try` and the command fails: no page is sent and nothing is reset. */
  method LeaderboardAsWritten(ranked: seq<Entry>, top: int, maxBal: int, authorId: MemberId) returns (b: Board)
    ensures b.NoAccounts? <==> ranked == []
    ensures b.Failed? <==> ranked != [] && !WithinMaximum(ranked[..Min(EffectiveTop(top), |ranked|)], maxBal)
    ensures b.Pages? ==> Flatten(b.pages) == Rows(ranked[..Min(EffectiveTop(top), |ranked|)], maxBal, authorId)
    ensures b.Pages? ==> forall row :: row in Flatten(b.pages) ==> row.shown == ranked[row.pos - 1].balance
    ensures b.Pages? ==> 1 <= |b.pages| == PageCount(Min(EffectiveTop(top), |ranked|))
    ensures b.Pages? ==> forall k :: 0 <= k < |b.pages| ==> b.pages[k].num == k + 1 && b.pages[k].total == |b.pages|
    ensures b.Pages? ==> forall k :: 0 <= k < |b.pages| ==> 1 <= |b.pages[k].rows| <= PageSize
    ensures b.Pages? ==> forall k :: 0 <= k < |b.pages| - 1 ==> |b.pages[k].rows| == PageSize
    ensures b.Pages? ==> b.resets == []
  {
    var shown := ranked[..Min(EffectiveTop(top), |ranked|)];
    if shown == [] {
      return NoAccounts;
    }
    if !WithinMaximum(shown, maxBal) {
      return Failed;
    }
    var rows := Rows(shown, maxBal, authorId);
    var pages := Paginate(rows);
    b := Pages(pages, []);
  }

  /** The leaderboard command as intended (atxbank/atxbank.py:169-266, with the
      reset of line 215 storing the maximum). `ranked` is the host's ranking of all
      accounts; the board asks it for the first `top` positions. */
  method Leaderboard(ranked: seq<Entry>, top: int, maxBal: int, authorId: MemberId) returns (b: Board)
    ensures !b.Failed?
    ensures b.NoAccounts? <==> ranked == []
    ensures b.Pages? ==> Flatten(b.pages) == Rows(ranked[..Min(EffectiveTop(top), |ranked|)], maxBal, authorId)
    ensures b.Pages? ==> 1 <= |b.pages| == PageCount(Min(EffectiveTop(top), |ranked|))
    ensures b.Pages? ==> forall k :: 0 <= k < |b.pages| ==> b.pages[k].num == k + 1 && b.pages[k].total == |b.pages|
    ensures b.Pages? ==> forall k :: 0 <= k < |b.pages| ==> 1 <= |b.pages[k].rows| <= PageSize
    ensures b.Pages? ==> forall k :: 0 <= k < |b.pages| - 1 ==> |b.pages[k].rows| == PageSize
    ensures b.Pages? ==> b.resets == Resets(ranked[..Min(EffectiveTop(top), |ranked|)], maxBal)
  {
    var shown := ranked[..Min(EffectiveTop(top), |ranked|)];
    if shown == [] {
      return NoAccounts;
    }
    var rows := Rows(shown, maxBal, authorId);
    var pages := Paginate(rows);
    b := Pages(pages, Resets(shown, maxBal));
  }

  /** One account above the maximum: as written the command fails, while the
      intended board shows the maximum and resets that account. */
  lemma OverMaximumFailsAsWritten()
    ensures !WithinMaximum([Entry(1, 20)], 10)
    ensures Resets([Entry(1, 20)], 10) == [1]
    ensures Rows([Entry(1, 20)], 10, 0) == [Row(1, 1, 10, false)]
  {
    assert [Entry(1, 20)][0].balance > 10;
  }
}

=== FILE: ledger.dfy ===
/** The two balance-changing rules that `work`, `addmoney`, `removemoney`, the
    mass adjustments and the tax sweep share: a credit capped at the guild's
    maximum balance and a debit floored at zero. The host ledger refuses a
    negative deposit or withdrawal by raising, and these commands swallow that
    exception, so such a request leaves the balance as it was. */
module Ledger {
  import opened Basics

  /** Deposit `amount`, or set the balance to `maxBal` when the sum would exceed it
      (atxbank/atxbank.py:367-377, 659-668, 831-839). */
  function Credit(current: int, amount: int, maxBal: int): (r: int)
    ensures amount >= 0 ==> r == Min(current + amount, maxBal)
    ensures r <= maxBal || (amount < 0 && r == current)
    ensures amount >= 0 && current <= maxBal ==> current <= r
    ensures amount < 0 && current + amount <= maxBal ==> r == current
    ensures current + amount > maxBal ==> r == maxBal
  {
    if current + amount > maxBal then maxBal
    else if amount < 0 then current
    else current + amount
  }

  /** Withdraw `amount`, or set the balance to zero when the difference would be
      negative (atxbank/atxbank.py:492-501, 701-708, 819-828). */
  function Debit(current: int, amount: int): (r: int)
    ensures amount >= 0 ==> r == Max(current - amount, 0)
    ensures amount >= 0 ==> 0 <= r
    ensures amount >= 0 && current >= 0 ==> r <= current
    ensures amount < 0 && current - amount >= 0 ==> r == current
  {
    if current - amount < 0 then 0
    else if amount < 0 then current
    else current - amount
  }

  /** A credit of nothing and a debit of nothing change nothing (for a balance
      that already respects the ledger's bounds). */
  lemma ZeroAdjustmentIsIdentity(current: int, maxBal: int)
    requires 0 <= current <= maxBal
    ensures Credit(current, 0, maxBal) == current
    ensures Debit(current, 0) == current
  {
  }

  /** A debit that did not hit the floor is undone by a credit of the same amount. */
  lemma CreditUndoesDebit(current: int, amount: int, maxBal: int)
    requires 0 <= amount <= current <= maxBal
    ensures Credit(Debit(current, amount), amount, maxBal) == current
  {
  }

  /** A credit that did not hit the cap is undone by a debit of the same amount. */
  lemma DebitUndoesCredit(current: int, amount: int, maxBal: int)
    requires 0 <= amount && 0 <= current && current + amount <= maxBal
    ensures Debit(Credit(current, amount, maxBal), amount) == current
  {
  }

  /** Both rules keep a balance inside the ledger's bounds `0..maxBal`. */
  lemma AdjustmentsKeepBounds(current: int, amount: int, maxBal: int)
    requires 0 <= current <= maxBal && 0 <= amount
    ensures 0 <= Credit(current, amount, maxBal) <= maxBal
    ensures 0 <= Debit(current, amount) <= maxBal
  {
  }
}

=== FILE: payout.dfy ===
/** The work command: cooldown check, randomized base pay, role bonuses, the
    jackpot roll and the capped credit. The three random draws of the source
    (`random.randint` for the base, the roll and the jackpot tenths) are passed in. */
module Payout {
  import opened Guild
  import opened Ledger
  import opened Cooldown

  const VoterBonus: int := 25
  const BoosterBonus: int := 50
  /** The roll (drawn from 0..10) that triggers the jackpot. */
  const JackpotRoll: int := 10

  datatype RoleFlags = RoleFlags(isBooster: bool, isVoter: bool)

  /** One pass over the member's roles, as the loop at atxbank/atxbank.py:332-337 does it. */
  function ScanRoles(roles: seq<RoleId>, boosterRole: RoleId, voterRole: RoleId): (f: RoleFlags)
    ensures f.isBooster <==> boosterRole in roles
    ensures f.isVoter <==> voterRole in roles
  {
    if roles == [] then RoleFlags(false, false)
    else
      var rest := ScanRoles(roles[1..], boosterRole, voterRole);
      RoleFlags(rest.isBooster || roles[0] == boosterRole, rest.isVoter || roles[0] == voterRole)
  }

  /** The bonus flags: roles are only looked at when a booster or a voter role is
      configured (atxbank/atxbank.py:324-337). */
  function Flags(roles: seq<RoleId>, boosterRole: RoleId, voterRole: RoleId): (f: RoleFlags)
    ensures f.isBooster <==> (boosterRole != 0 || voterRole != 0) && boosterRole in roles
    ensures f.isVoter <==> (boosterRole != 0 || voterRole != 0) && voterRole in roles
  {
    if boosterRole != 0 || voterRole != 0 then ScanRoles(roles, boosterRole, voterRole)
    else RoleFlags(false, false)
  }

  /** Python's `round` of `n / 10`: the nearest integer, ties to the even one. */
  function RoundTenths(n: int): (r: int)
    ensures -5 <= n - 10 * r <= 5
    ensures n - 10 * r == 5 || n - 10 * r == -5 ==> r % 2 == 0
  {
    var q := n / 10;
    var rem := n % 10;
    if rem < 5 then q
    else if rem > 5 then q + 1
    else if q % 2 == 0 then q
    else q + 1
  }

  /** Rounding to nearest, ties to even, has exactly one answer. */
  lemma RoundTenthsUnique(n: int, r: int)
    requires -5 <= n - 10 * r <= 5
    requires n - 10 * r == 5 || n - 10 * r == -5 ==> r % 2 == 0
    ensures r == RoundTenths(n)
  {
  }

  /** The jackpot bonus: `round(running * k / 10)` when the roll is 10, else nothing
      (atxbank/atxbank.py:362-365). The float product is taken exactly here. */
  function JackpotBonus(running: int, roll: int, k: int): (bonus: int)
    requires 1 <= k <= 10
    ensures roll != JackpotRoll ==> bonus == 0
    ensures roll == JackpotRoll ==> -5 <= running * k - 10 * bonus <= 5
    ensures roll == JackpotRoll && (running * k - 10 * bonus == 5 || running * k - 10 * bonus == -5) ==> bonus % 2 == 0
    ensures 0 <= running ==> 0 <= bonus <= running
  {
    if roll == JackpotRoll then
      assert 0 <= running ==> 0 <= running * k <= 10 * running;
      RoundTenths(running * k)
    else 0
  }

  /** How one work payout is made up, as the payout message itemizes it. */
  datatype Breakdown = Breakdown(base: int, voter: int, booster: int, jackpot: bool, bonus: int, total: int)

  /** Base pay, then the voter and booster bonuses, then the jackpot on the running
      total (atxbank/atxbank.py:349-365). */
  function ComputePayout(base: int, flags: RoleFlags, roll: int, k: int): (b: Breakdown)
    requires 0 <= roll <= 10 && 1 <= k <= 10
    ensures b.base == base
    ensures b.voter == (if flags.isVoter then VoterBonus else 0)
    ensures b.booster == (if flags.isBooster then BoosterBonus else 0)
    ensures b.jackpot <==> roll == JackpotRoll
    ensures !b.jackpot ==> b.bonus == 0
    ensures b.bonus == JackpotBonus(b.base + b.voter + b.booster, roll, k)
    ensures 0 <= b.base + b.voter + b.booster ==> 0 <= b.bonus <= b.base + b.voter + b.booster
    ensures b.total == b.base + b.voter + b.booster + b.bonus
  {
    var voter := if flags.isVoter then VoterBonus else 0;
    var booster := if flags.isBooster then BoosterBonus else 0;
    var running := base + voter + booster;
    var bonus := JackpotBonus(running, roll, k);
    Breakdown(base, voter, booster, roll == JackpotRoll, bonus, running + bonus)
  }

  /** Guild settings the work command reads. */
  datatype WorkConfig = WorkConfig(minPay: int, maxPay: int, cooldownHrs: int, boosterRole: RoleId, voterRole: RoleId)

  /** The random values one work invocation draws: base pay, the roll, the jackpot tenths. */
  datatype WorkDraws = WorkDraws(base: int, roll: int, k: int)

  predicate ValidDraws(cfg: WorkConfig, draws: WorkDraws) {
    cfg.minPay <= draws.base <= cfg.maxPay && 0 <= draws.roll <= 10 && 1 <= draws.k <= 10
  }

  /** Refused: still cooling down. PayRangeEmpty: `random.randint(min, max)` raised
      because `min > max`, after the timestamp was already stored. Paid: the payout
      and the balance after the credit. */
  datatype WorkOutcome = Refused(remaining: int, wait: seq<Part>) | PayRangeEmpty | Paid(pay: Breakdown, balance: int)

  datatype WorkStep = WorkStep(outcome: WorkOutcome, lastUse: LastUse)

  /** The work command (atxbank/atxbank.py:276-377). */
  function Work(cfg: WorkConfig, last: LastUse, now: int, roles: seq<RoleId>, balance: int, maxBal: int, draws: WorkDraws): (s: WorkStep)
    requires CheckWork(last, cfg.cooldownHrs, now).Allowed? && cfg.minPay <= cfg.maxPay ==> ValidDraws(cfg, draws)
    ensures s.outcome.Refused? <==> CheckWork(last, cfg.cooldownHrs, now).Denied?
    ensures s.outcome.Refused? ==> s.lastUse == last
    ensures s.outcome.Refused? ==>
              && s.outcome.remaining == CheckWork(last, cfg.cooldownHrs, now).remaining
              && s.outcome.wait == WaitParts(Decompose(s.outcome.remaining))
    ensures !s.outcome.Refused? ==> s.lastUse == Stamp(now)
    ensures s.outcome.PayRangeEmpty? <==> CheckWork(last, cfg.cooldownHrs, now).Allowed? && cfg.minPay > cfg.maxPay
    ensures s.outcome.Paid? ==>
              s.outcome.pay == ComputePayout(draws.base, Flags(roles, cfg.boosterRole, cfg.voterRole), draws.roll, draws.k)
    ensures s.outcome.Paid? ==> s.outcome.balance == Credit(balance, s.outcome.pay.total, maxBal)
  {
    match CheckWork(last, cfg.cooldownHrs, now)
    case Denied(remaining) => WorkStep(Refused(remaining, WaitParts(Decompose(remaining))), last)
    case Allowed =>
      if cfg.minPay > cfg.maxPay then WorkStep(PayRangeEmpty, Stamp(now))
      else
        var pay := ComputePayout(draws.base, Flags(roles, cfg.boosterRole, cfg.voterRole), draws.roll, draws.k);
        WorkStep(Paid(pay, Credit(balance, pay.total, maxBal)), Stamp(now))
  }

  /** A paid work never leaves a well-formed balance outside `balance..maxBal`
      when the pay range is non-negative. */
  lemma WorkKeepsBalanceInBounds(cfg: WorkConfig, last: LastUse, now: int, roles: seq<RoleId>, balance: int, maxBal: int, draws: WorkDraws)
    requires CheckWork(last, cfg.cooldownHrs, now).Allowed? && cfg.minPay <= cfg.maxPay ==> ValidDraws(cfg, draws)
    requires 0 <= cfg.minPay && 0 <= balance <= maxBal
    ensures Work(cfg, last, now, roles, balance, maxBal, draws).outcome.Paid? ==>
              balance <= Work(cfg, last, now, roles, balance, maxBal, draws).outcome.balance <= maxBal
  {
  }

  /** With a fixed range of 10, no bonus roles and no jackpot, the payout is 10. */
  lemma PlainWorkPaysBase(roll: int, k: int)
    requires 0 <= roll < JackpotRoll && 1 <= k <= 10
    ensures ComputePayout(10, Flags([], 0, 0), roll, k).total == 10
  {
  }

  /** Voter and booster bonuses stack on a zero base: 0 + 25 + 50 without a jackpot. */
  lemma BothBonusesStack(boosterRole: RoleId, voterRole: RoleId, roles: seq<RoleId>, roll: int, k: int)
    requires boosterRole != 0 && boosterRole in roles && voterRole in roles
    requires 0 <= roll < JackpotRoll && 1 <= k <= 10
    ensures ComputePayout(0, Flags(roles, boosterRole, voterRole), roll, k).total == 75
  {
  }
}

=== FILE: sweeps.dfy ===
/** A pass over a list of accounts that adjusts every human's balance and skips
    bots, keeping the order of the list; the tax sweep and the mass adjustments
    share it. */
module Sweeps {
  import opened Guild

  function Sweep(accounts: seq<Account>, adjust: int -> int): (out: seq<int>)
    ensures |out| == |accounts|
    ensures forall i :: 0 <= i < |accounts| && accounts[i].member.isBot ==> out[i] == accounts[i].balance
    ensures forall i :: 0 <= i < |accounts| && !accounts[i].member.isBot ==> out[i] == adjust(accounts[i].balance)
  {
    if accounts == [] then []
    else
      var head := if accounts[0].member.isBot then accounts[0].balance else adjust(accounts[0].balance);
      [head] + Sweep(accounts[1..], adjust)
  }
}

=== FILE: taxes.dfy ===
/** The tax sweep: every human member with a positive balance pays a percentage of
    the whole balance, the percentage set by the highest bracket the balance
    strictly exceeds. */
module Taxes {
  import opened Guild
  import opened Sweeps
  import opened Ledger

  /** The bracket rate in whole percent (atxbank/atxbank.py:479-490). */
  function TaxRate(bal: int): (rate: int)
    ensures rate in {0, 2, 5, 10, 15, 30}
    ensures bal <= 1000 <==> rate == 0
  {
    if bal > 10000 then 30
    else if bal > 8000 then 15
    else if bal > 5000 then 10
    else if bal > 3000 then 5
    else if bal > 1000 then 2
    else 0
  }

  /** A bracket: balances strictly above `above` pay `rate` percent. */
  datatype Bracket = Bracket(above: int, rate: int)

  /** The brackets as a table, highest first. */
  const Brackets: seq<Bracket> :=
    [Bracket(10000, 30), Bracket(8000, 15), Bracket(5000, 10), Bracket(3000, 5), Bracket(1000, 2)]

  /** A reference lookup: the first bracket of the table that the balance exceeds. */
  function RateFromTable(table: seq<Bracket>, bal: int): int {
    if table == [] then 0
    else if bal > table[0].above then table[0].rate
    else RateFromTable(table[1..], bal)
  }

  /** The chain of comparisons in the source and the bracket table agree everywhere. */
  lemma TaxRateMatchesTable(bal: int)
    ensures TaxRate(bal) == RateFromTable(Brackets, bal)
  {
    var t1 := [Bracket(8000, 15), Bracket(5000, 10), Bracket(3000, 5), Bracket(1000, 2)];
    var t2 := [Bracket(5000, 10), Bracket(3000, 5), Bracket(1000, 2)];
    var t3 := [Bracket(3000, 5), Bracket(1000, 2)];
    var t4 := [Bracket(1000, 2)];
    assert Brackets[1..] == t1 && t1[1..] == t2 && t2[1..] == t3 && t3[1..] == t4 && t4[1..] == [];
    assert RateFromTable(t4, bal) == TaxRate(bal) || bal > 3000;
    assert RateFromTable(t3, bal) == TaxRate(bal) || bal > 5000;
    assert RateFromTable(t2, bal) == TaxRate(bal) || bal > 8000;
    assert RateFromTable(t1, bal) == TaxRate(bal) || bal > 10000;
  }

  /** A larger balance never falls into a lower bracket. */
  lemma TaxRateMonotone(b1: int, b2: int)
    requires b1 <= b2
    ensures TaxRate(b1) <= TaxRate(b2)
  {
  }

  /** The tax owed: `int(bal * rate)`, a floor for the positive balances taxed
      (atxbank/atxbank.py:477-490). */
  function TaxAmount(bal: int): (tax: int)
    requires bal > 0
    ensures 0 <= tax <= bal
    ensures tax * 100 <= bal * TaxRate(bal) < tax * 100 + 100
  {
    bal * TaxRate(bal) / 100
  }

  /** Tax grows with the balance, because both the balance and its rate do. */
  lemma TaxAmountMonotone(b1: int, b2: int)
    requires 0 < b1 <= b2
    ensures TaxAmount(b1) <= TaxAmount(b2)
  {
    TaxRateMonotone(b1, b2);
    var r1, r2 := TaxRate(b1), TaxRate(b2);
    assert b1 * r1 <= b2 * r1 <= b2 * r2;
  }

  /** The balance after one member's taxes (atxbank/atxbank.py:473-501): balances
      that are not positive are left alone. */
  function AfterTax(bal: int): (r: int)
    ensures bal <= 0 ==> r == bal
    ensures bal > 0 ==> 0 <= r <= bal && r == bal - TaxAmount(bal)
    ensures 1000 < bal ==> r < bal
  {
    if bal > 0 then Debit(bal, TaxAmount(bal)) else bal
  }

  /** The brackets are cliffs, not marginal rates: one unit more before taxes
      leaves far less after them. */
  lemma BracketCliff()
    ensures AfterTax(10000) == 8500
    ensures AfterTax(10001) == 7001
  {
  }

  /** The sweep over the guild (atxbank/atxbank.py:469-501): bots are skipped,
      nobody ends below zero or above what they had. */
  function TaxSweep(accounts: seq<Account>): (out: seq<int>)
    ensures |out| == |accounts|
    ensures forall i :: 0 <= i < |accounts| && (accounts[i].member.isBot || accounts[i].balance <= 0) ==> out[i] == accounts[i].balance
    ensures forall i :: 0 <= i < |accounts| && !accounts[i].member.isBot && accounts[i].balance > 0 ==>
              0 <= out[i] <= accounts[i].balance && out[i] == accounts[i].balance - TaxAmount(accounts[i].balance)
  {
    Sweep(accounts, AfterTax)
  }
}
